=== FILE: README.md ===
# Heroes III demon-farming calculator: a Dafny model

A Pit Lord turns the hit points of a stack of units into demons. Each demon
costs 35 HP, and each Pit Lord grinds 50 HP per use. This project models
three parts of the calculator:

- **The engine** (`calculate_demon_farm`). Given a unit's HP, a unit count and
  a number of Pit Lords, it reports:
  - the HP pool;
  - the demons the pool and the Pit Lords allow, and the binding one of the two;
  - the Pit Lords the whole pool needs;
  - the HP left over;
  - the *perfect stack*: the smallest positive count that leaves nothing over,
    with its HP and the Pit Lords it needs.
- **The neighbourhood scan behind the distribution chart** (`_calculate_chart_data`),
  in both revisions: `src/cli.py` (newer) and the top-level `cli.py` (older).
  - It clamps a negative count to zero.
  - It lays out the rows for counts `c-4 .. c+4`, with negative counts skipped.
  - When the first row is above zero and is not the perfect stack itself, it
    puts a marker in front at the greatest zero-waste count below that row.
    For a current count of 4 or less the first row is count 0, so there is no
    lower marker.
  - It adds a marker above the last row. The newer revision puts this marker at
    the next perfect count above the current one, and only when that count lies
    beyond the window. The older revision puts it at the next multiple of the
    perfect stack after the last row, whenever that row wastes HP.
- **The row decisions of the chart display**: which rows are skipped, which
  count as perfect, and which label a row gets. The newer revision adds a
  "Need +diff for PERFECTION" hint to the current row.

Modules:

- `Arith` (`arith.dfy`): gcd, Bezout coefficients, ceiling division, next and
  previous multiples, and the smallest-multiplier theorem.
- `Config` and `Core` (`core.dfy`): the constants and the engine.
- `Chart` (`chart.dfy`): the newer scan.
- `LegacyChart` (`legacy_chart.dfy`): the older scan.
- `Display` (`display.dfy`): the row filter and the labels.

Modelling conventions:

- Python's `%` and `//` are only ever applied with a positive divisor. In that
  case they coincide with Dafny's `%` and `/`.
- `math.ceil(a / b)` is the exact ceiling `Arith.CeilDiv`. The source divides in floating point, and the two agree for whole-number HP while `|count * hp|` stays below 2^53.
- The yields `total / 35` are exact rationals (`real`).
- HP is a natural number; the count and the Pit Lords are integers. In the source HP is a float, and the pool is therefore a float too; see "## Left out".

## Model

| member | source | states |
|---|---|---|
| Arith.Gcd | src/core.py:24 | Euclid's algorithm, the value `math.gcd` returns on non-negative arguments; its properties are the next two rows |
| Arith.GcdDividesBoth | src/core.py:24 | the gcd of two numbers, not both zero, is positive and divides both |
| Arith.CommonDivisorDividesGcd | src/core.py:24 | every common divisor divides the gcd, so the gcd is the greatest common divisor |
| Arith.Bezout | src/core.py:24 | there are integers x, y with x*a + y*b equal to the gcd |
| Arith.MultiplierTheorem | src/core.py:24-25 | for n > 0, k*h is a multiple of n exactly when k is a multiple of n / gcd(h, n); both directions |
| Arith.CeilDiv | src/core.py:20 | the result r is the ceiling of a / b: (r-1)*b < a <= r*b |
| Arith.NextMultiple | src/cli.py:177 | `((x // m) + 1) * m` is a multiple of m, strictly above x and at most m above it |
| Arith.NextMultipleIsLeast | src/cli.py:177 | no multiple of m lies strictly between x and `NextMultiple(x, m)` |
| Arith.NextMultipleOfMultiple | src/cli.py:174-177 | after a multiple x of m the next one is x + m, which is why the zero-waste branch agrees with the formula |
| Arith.PrevMultiple | src/cli.py:204 | `((x - 1) // m) * m` is a multiple of m, strictly below x and at most m below it |
| Arith.PrevMultipleIsGreatest | src/cli.py:204 | no multiple of m lies strictly between `PrevMultiple(x, m)` and x |
| Core.PerfectUnits | src/core.py:24-25 | `35 / gcd(hp, 35)` is a positive divisor of 35, and that many units waste nothing |
| Core.CalculateDemonFarm | src/core.py:5-46 | it echoes the inputs. The pool is count*hp. The HP yield is pool/35 and the Pit Lord yield is lords*50/35. The gain is the smaller yield. The needed Pit Lords are the least n with n*50 >= pool. The waste is below 35 and leaves a multiple of 35. The perfect stack divides 35, its HP is a multiple of 35, and its Pit Lords are the ceiling of that HP over 50 |
| Core.ZeroWasteIffPerfectMultiple | src/core.py:21-25 | a count wastes nothing exactly when it is a multiple of the perfect stack |
| Core.PerfectStackIsMinimal | src/core.py:24-25 | no positive count below the perfect stack wastes nothing, so the perfect stack is the minimal zero-waste stack |
| Core.WasteZeroIffPerfectMultiple | src/core.py:21-25 | the engine's wasted HP is 0 exactly when the count is a multiple of its own perfect-stack field |
| Core.DivisorsOfDemonHp | src/core.py:25 | the only positive divisors of 35 are 1, 5, 7 and 35 |
| Core.PerfectUnitsAreDivisorsOfDemonHp | src/core.py:24-25 | for every natural HP the model's perfect stack is 1, 5, 7 or 35 |
| Core.PerfectStackIndependentOfCount | src/core.py:23-27 | the three perfect-stack fields depend on the HP alone, not on the count or the Pit Lords |
| Core.ZeroHpPerfectStack | src/core.py:24-27 | 0 HP gives gcd(0, 35) = 35: a one-unit perfect stack of 0 HP needing no Pit Lords, and no pool and no waste |
| Core.NoLordsNoDemons | src/core.py:16-18 | with no Pit Lords and a non-negative count nothing is gained |
| Core.ExampleTenFullStacks | src/core.py:13-27 | ten 35-HP units with 100 Pit Lords: 350 HP, 10 demons, 7 Pit Lords needed, no waste, a one-unit perfect stack |
| Core.ExampleSevenTens | src/core.py:13-27 | seven 10-HP units with no Pit Lords: 70 HP, 2 demons possible and none gained, no waste, a perfect stack of 7 units needing 2 Pit Lords |
| Core.TenHpPerfectStack | src/core.py:24-25 | 10-HP units have a perfect stack of 7 |
| Chart.Entry | src/cli.py:186-199 | a row for a count carries that count and its flags, and shows zero waste exactly when the count converts with zero waste |
| Chart.EntryAnnotated | src/cli.py:189-193 | a row carries the engine's HP yield, waste and Pit Lords for its own count |
| Chart.AnnotatedWaste | src/cli.py:192 | a row carrying the engine's figures shows zero waste exactly when its count converts with zero waste |
| Chart.Clamp | src/cli.py:165-166 | a negative count becomes 0 and a non-negative one is kept |
| Chart.NextPerfectCount | src/cli.py:172-177 | the result is -1 exactly when there is no perfect stack; otherwise it lies strictly above the count and at most one perfect stack further |
| Chart.NextPerfectCountIsLeastPerfectAbove | src/cli.py:168-177 | the reported next perfect count is never -1. It is the least zero-waste count strictly above the clamped count, a multiple of the perfect stack, and at most one perfect stack away. When the current count already wastes nothing it is exactly one perfect stack further |
| Chart.NegativeInputNextPerfect | src/cli.py:165-175 | for a negative input the next perfect count is the perfect stack itself |
| Chart.Run | src/cli.py:179-199 | the regular rows from a given count up to c+4 number exactly that many counts |
| Chart.RunCons | src/cli.py:179-199 | a run of rows is its first row followed by the run one count further |
| Chart.WindowFromIsRun | src/cli.py:179-199 | the offset loop from any offset yields the run starting at the first non-negative count it visits |
| Chart.WindowIsOffsetLoop | src/cli.py:179-199 | the offset loop over -4..4 with negative counts skipped yields exactly the window the rest of the model uses |
| Chart.WindowShape | src/cli.py:179-199 | the window has 5 to 9 rows, and 9 when c >= 4. It ascends by one from `max(c-4, 0)` to c+4. It has no marker, and exactly the row at c is current |
| Chart.WindowWaste | src/cli.py:192-198 | each window row shows zero waste exactly when its count converts with zero waste |
| Chart.WindowAnnotated | src/cli.py:186-199 | every window row carries the engine's figures for its own count |
| Chart.WindowCounts | src/cli.py:179-184 | the window shows exactly the non-negative counts among c-4..c+4 |
| Chart.LeastPerfectAboveShift | src/cli.py:217-218 | the least perfect count above x is also the least above any y between x and it |
| Chart.LeastPerfectAboveUnique | src/cli.py:217-218 | there is only one least perfect count above a given count |
| Chart.PrevMultipleIsGreatestPerfect | src/cli.py:204 | the lower marker's count is the greatest zero-waste count strictly below the first row |
| Chart.NextMultipleIsLeastPerfect | src/cli.py:177 | the next multiple of the perfect stack is the least zero-waste count strictly above |
| Chart.LowerMarkerPlacement | src/cli.py:201-215 | the lower marker is prepended exactly when the first count is positive and not the perfect stack itself. It is then a non-current marker carrying the engine's figures, at the greatest zero-waste count below the first row; otherwise the rows are unchanged. Stated on any rows whose first row's waste matches its count |
| Chart.LowerMarkerKeepsLast | src/cli.py:201-217 | adding the lower marker leaves the last window row, at c+4, last |
| Chart.NewerChartFromLower | src/cli.py:201-227 | the chart is the window with its lower marker, plus a marker at the next perfect count exactly when that count lies beyond c+4 |
| Chart.UpperMarkerWhenWindowHasNoPerfectAbove | src/cli.py:217-218 | the upper marker is added exactly when no count in c+1..c+4 converts with zero waste; both directions |
| Chart.ChartLayout | src/cli.py:160-229 | the rows are an optional lower marker, then the window unchanged, then an optional upper marker. It states when each marker is present, where it stands, and that it carries the engine's figures |
| Chart.FramedAscending | src/cli.py:201-227 | a strictly ascending run with a smaller row before it and a larger row after it stays strictly ascending |
| Chart.ChartRowOrigin | src/cli.py:160-229 | each row is either a window row in its place, or the lower marker at the front, or the upper marker at the next perfect count at the end |
| Chart.ChartAscending | src/cli.py:160-229 | the rows are strictly ascending by count |
| Chart.ChartAnnotated | src/cli.py:160-229 | every row carries the engine's figures for its own count |
| Chart.ChartRows | src/cli.py:160-229 | exactly the rows at the clamped count are current; markers stand only at the two ends, are never current and always waste nothing |
| Chart.ChartHasOneCurrent | src/cli.py:160-229 | the clamped count always appears, and at most one row is current |
| Chart.CurrentRow | src/cli.py:165-199 | the current row stands at the clamped count and shows zero waste exactly when that count wastes nothing |
| Chart.CalculateChartData | src/cli.py:160-229 | the returned engine result is the one for the clamped count, and there are at least five rows |
| LegacyChart.CalculateChartData | cli.py:160-227 | the older scan returns the engine result for the clamped count and at least five rows |
| LegacyChart.LastRowWaste | cli.py:212-213 | the last window row stands at c+4 and wastes HP exactly when c+4 units do |
| LegacyChart.OlderChartFromLower | cli.py:196-225 | the older chart is the window with its lower marker, plus a marker at the next multiple of the perfect stack after c+4 exactly when c+4 wastes HP |
| LegacyChart.LegacyChartLayout | cli.py:160-227 | the older layout has the same lower marker and unchanged window. Its upper marker is present exactly when c+4 wastes HP, and stands at the least zero-waste count above c+4, at most one perfect stack further |
| LegacyChart.LegacyChartAscending | cli.py:160-227 | the older rows are strictly ascending by count |
| LegacyChart.RevisionsDifferOnlyInUpperMarker | cli.py:212-225 | both revisions return the same engine result. The newer rows are the older rows, or the older rows without their last row. They coincide whenever the newer revision appends its marker |
| LegacyChart.SevenSevensLowerPart | cli.py:196-210 | for seven 7-HP units the perfect stack is 5, and the lower marker brings the window 3..11 to ten rows |
| LegacyChart.SevenSevensUpperPart | cli.py:212-214 | for seven 7-HP units the next perfect count is 10, while 11 units waste HP and the next multiple after 11 is 15 |
| LegacyChart.RevisionsDisagreeExample | cli.py:212-225 | for seven 7-HP units the newer chart has ten rows, and the older one has eleven, ending with a marker at 15 |
| Display.RowLabel | src/cli.py:138-147 | the row is labelled current exactly when it is current, and perfect exactly when it has units and no waste. A current, imperfect row gets the hint "Need +(next - passed count)" exactly when the next perfect count is above the passed count, and the plain "CURRENT" label otherwise; a hint is always positive and lands on the next perfect count |
| Display.LegacyRowLabel | cli.py:141-147 | the older labels: current exactly when current, perfect exactly when perfect, and never a hint |
| Display.LegacyLabelDropsHint | cli.py:141-147 | the older label is the newer label with the hint dropped |
| Display.ShownRows | src/cli.py:115-116 | the drawn rows are taken from the chart and none is a zero-count non-current row, and every row not skipped is drawn |
| Display.ShownRowsKeepsAll | src/cli.py:115-116 | when no row is skipped, every row is drawn |
| Display.ShownRowsOfAscending | src/cli.py:113-116 | in an ascending chart only the first row can be skipped |
| Display.ShownKeepsCurrent | src/cli.py:115-116 | drawing an ascending chart never drops a current row |
| Display.ShownMarkersArePerfect | src/cli.py:113-147 | a drawn marker that is not current and wastes nothing is labelled a perfect stack |
| Display.ShownChartRows | src/cli.py:113-147 | drawing the newer chart drops at most its first row, and only when that row has zero units and is not current. It never drops the current row, and labels every drawn marker a perfect stack |
| Display.CurrentLabelAt | src/cli.py:138-145 | the current row is "CURRENT & PERFECT" when its clamped count is positive and wastes nothing. Otherwise it carries the hint measured from the passed count. For a non-negative count the hint is at most one perfect stack and lands on the least zero-waste count above |
| Display.CurrentRowLabel | src/cli.py:138-145 | the same for the chart the scan builds: the current row is at the clamped count, with the label and the hint as above |
| Display.NegativeInputHint | src/cli.py:143-145 | with a negative count the current row shows zero units, but the hint is measured from the raw count and asks for more than a whole perfect stack |
| Display.NegativeInputHintExample | src/cli.py:143-145 | for 10-HP units at count -3 the next perfect count is 7 and the hint reads +10 |

## Left out

- Input prompts, menus, the database of units, the reverse calculator and all other screens are not modelled. They are I/O around the engine.
- Drawing is not modelled: the bars, the Pit Lord group separators and check marks, the "(...)" line before a marker, and the "(invalid)" fallback for negative counts. Only the decisions that feed drawing are modelled: skipping, perfection and labels. The "(invalid)" branch cannot fire on rows the scan builds, whose counts are non-negative.
- Fractional and negative HP are not modelled. Manual entry accepts any float, and the engine takes `int()` of it for the gcd. The unit catalogue holds integral, positive HP, so HP is a natural number here.
- Floating-point arithmetic is not modelled. HP reaches the engine as a float: the catalogue column is `FLOAT` (src/db.py:18), so a stored HP comes back as e.g. `10.0`, and manual entry goes through `float()` (src/cli.py:297). The pool, the `%` waste, the Pit Lord ceilings and the perfect-stack HP are therefore IEEE doubles in the source. The model's exact integers agree with them only while `|count * hp|` stays below 2^53; beyond that the source rounds. The yields are exact rationals here, not doubles.
- The `except ValueError` fallback of the engine (src/core.py:28-31) is not a branch in the model, because no float HP reaches it. No finite HP raises `ValueError` in src/core.py:24-27: `int()` and `math.ceil` of a finite value succeed, `math.gcd` never raises, and the gcd with 35 is never zero. A finite HP above about 5e306 can overflow `hp_for_perfect_grind` to infinity at line 26, and `math.ceil` at line 27 then raises an uncaught `OverflowError`. A NaN or infinite HP, or a count large enough to overflow the pool, makes the pool NaN or infinite. Then `math.ceil` at src/core.py:20, before the `try`, raises an uncaught `ValueError` or `OverflowError` and stops the engine. Those inputs are out of scope.
- The `min_perfect_stack > 0` guards of both scans are kept. The model proves the perfect stack is always positive, so their else branches are dead.
- The older revision imports a top-level `core` module, which is not part of this model. It is taken to be the same engine as `src/core.py`.
- The newer revision (src/cli.py:4) writes `import src.core`, which binds only the name `src`, yet calls `core.calculate_demon_farm` (src/cli.py:168, 189, 207, 219). As written, its scan would stop with a `NameError` at line 168. The model takes these calls to be `src/core.py`'s engine, as the evident intent.
- The callers pass the unclamped count to the display while the scan clamps it. Display takes that count as a separate argument, and `Display.NegativeInputHint` states the consequence for a negative count.
- Display.CurrentRowLabel: does not restate that the hint lands on the least zero-waste count above the count. The generic `Display.CurrentLabelAt` and `Chart.NextPerfectCountIsLeastPerfectAbove` state it for the same values.

=== FILE: arith.dfy ===
/**
 Integer arithmetic the demon-farming engine relies on: Euclid's gcd (the
 value Python's `math.gcd` returns for non-negative arguments), Bezout
 coefficients, ceiling division, and the "smallest multiplier" theorem that
 underlies the perfect-stack computation.

 Python's `%` and `//` with a positive divisor round toward negative
 infinity; Dafny's Euclidean `%` and `/` agree with them whenever the divisor
 is positive, which is the only case used here.
 */
module Arith {

  /** `d` is a positive divisor of `n`. */
  predicate Divides(d: int, n: int) {
    d > 0 && n % d == 0
  }

  /** A positive factor scales a non-zero integer away from zero by at least itself. */
  lemma {:induction false} MulAwayFromZero(d: int, z: int)
    requires d > 0
    ensures z >= 1 ==> d * z >= d
    ensures z <= -1 ==> d * z <= -d
    decreases if z < 0 then -z else z
  {
    if z > 1 {
      MulAwayFromZero(d, z - 1);
      assert d * z == d * (z - 1) + d;
    } else if z < -1 {
      MulAwayFromZero(d, z + 1);
      assert d * z == d * (z + 1) - d;
    }
  }

  /** A multiple of `d` strictly between `-d` and `d` is zero. */
  lemma SmallMultipleIsZero(d: int, z: int)
    requires d > 0 && -d < d * z < d
    ensures z == 0
  {
    MulAwayFromZero(d, z);
  }

  /** Division with remainder is unique. */
  lemma DivModUnique(n: int, d: int, q: int, r: int)
    requires d > 0 && 0 <= r < d
    requires n == d * q + r
    ensures n / d == q && n % d == r
  {
    var q', r' := n / d, n % d;
    assert n == d * q' + r';
    assert d * (q - q') == d * q - d * q';
    SmallMultipleIsZero(d, q - q');
  }

  lemma MultipleIsDivisible(d: int, k: int)
    requires d > 0
    ensures (d * k) % d == 0 && (d * k) / d == k
  {
    DivModUnique(d * k, d, k, 0);
  }

  /** `n` is divisible by `d` exactly when it is `d` times its quotient. */
  lemma DividesWitness(d: int, n: int)
    requires d > 0
    ensures n % d == 0 <==> n == d * (n / d)
  {
    if n == d * (n / d) {
      MultipleIsDivisible(d, n / d);
    }
  }

  /** Taking away the remainder leaves a multiple of the divisor. */
  lemma RemainderLeavesMultiple(a: int, d: int)
    requires d > 0
    ensures (a - a % d) % d == 0
  {
    assert a - a % d == d * (a / d);
    MultipleIsDivisible(d, a / d);
  }

  /** Divisibility is preserved by integer linear combinations. */
  lemma DividesLinear(d: int, x: int, y: int, a: int, b: int)
    requires Divides(d, x) && Divides(d, y)
    ensures Divides(d, a * x + b * y)
  {
    var s, t := x / d, y / d;
    DividesWitness(d, x);
    DividesWitness(d, y);
    calc {
      a * x + b * y;
      a * (d * s) + b * (d * t);
      d * (a * s + b * t);
    }
    MultipleIsDivisible(d, a * s + b * t);
  }

  /** Euclid's algorithm, the value of Python's `math.gcd` on non-negative arguments. */
  function Gcd(a: nat, b: nat): nat
    decreases b
  {
    if b == 0 then a else Gcd(b, a % b)
  }

  /** The gcd is a common divisor, positive unless both arguments are zero. */
  lemma {:induction false} GcdDividesBoth(a: nat, b: nat)
    requires a > 0 || b > 0
    ensures Gcd(a, b) > 0
    ensures a % Gcd(a, b) == 0 && b % Gcd(a, b) == 0
    decreases b
  {
    if b != 0 {
      var g := Gcd(b, a % b);
      if a % b == 0 {
        assert g == Gcd(b, 0) == b;
        assert a % g == 0;
      } else {
        GcdDividesBoth(b, a % b);
        assert a == (a / b) * b + a % b;
        DividesLinear(g, b, a % b, a / b, 1);
      }
    }
  }

  /** One step of the extended Euclidean algorithm: coefficients for `(b, a - q * b)` give coefficients for `(a, b)`. */
  lemma BezoutStep(a: int, b: int, q: int, x: int, y: int, g: int)
    requires x * b + y * (a - q * b) == g
    ensures y * a + (x - y * q) * b == g
  {
    assert y * (a - q * b) == y * a - y * (q * b);
    assert (x - y * q) * b == x * b - (y * q) * b;
    assert y * (q * b) == (y * q) * b;
  }

  /** Bezout coefficients `(x, y)` with `x * a + y * b == Gcd(a, b)`, from the extended Euclidean algorithm. */
  function Bezout(a: nat, b: nat): (c: (int, int))
    ensures c.0 * a + c.1 * b == Gcd(a, b)
    decreases b
  {
    if b == 0 then (1, 0)
    else
      var (x, y) := Bezout(b, a % b);
      var q := a / b;
      assert a % b == a - q * b;
      BezoutStep(a, b, q, x, y, Gcd(a, b));
      (y, x - y * q)
  }

  /** Every common divisor of `a` and `b` divides their gcd, so the gcd is the greatest one. */
  lemma CommonDivisorDividesGcd(a: nat, b: nat, d: int)
    requires Divides(d, a) && Divides(d, b)
    ensures Divides(d, Gcd(a, b))
    ensures a > 0 || b > 0 ==> d <= Gcd(a, b)
  {
    var (x, y) := Bezout(a, b);
    DividesLinear(d, a, b, x, y);
    if a > 0 || b > 0 {
      GcdDividesBoth(a, b);
      var g := Gcd(a, b);
      DividesWitness(d, g);
      MulAwayFromZero(d, g / d);
    }
  }

  /** Multiplying by a positive factor preserves the sign. */
  lemma MulSign(d: int, z: int)
    requires d > 0
    ensures d * z > 0 <==> z > 0
    ensures d * z == 0 <==> z == 0
  {
    MulAwayFromZero(d, z);
  }

  lemma MulRearrange(a: int, b: int, c: int, d: int)
    ensures (a * b) * (c * d) == (a * c) * (b * d)
  {
  }

  lemma MulDistributes(a: int, b: int, c: int)
    ensures a * (b + c) == a * b + a * c
  {
  }

  lemma MulSwap(a: int, b: int, c: int)
    ensures a * (b * c) == b * (a * c)
  {
  }

  /** Scaling a Bezout combination `x * h + y * n` by `k`, when `k * h == n * t`, gives a multiple of `n`. */
  lemma BezoutScaled(k: int, x: int, h: int, y: int, n: int, t: int)
    requires k * h == n * t
    ensures k * (x * h + y * n) == n * (x * t + k * y)
  {
    MulDistributes(k, x * h, y * n);
    MulSwap(k, x, h);
    MulSwap(k, y, n);
    MulSwap(x, n, t);
    MulDistributes(n, x * t, k * y);
    assert y * (k * n) == n * (k * y);
  }

  /** `k * gcd(h, n)` is a multiple of `n` whenever `k * h` is (the Bezout step). */
  lemma GcdMultipleStep(h: nat, n: nat, k: int)
    requires n > 0 && (k * h) % n == 0
    ensures (k * Gcd(h, n)) % n == 0
  {
    var (x, y) := Bezout(h, n);
    var t := (k * h) / n;
    DividesWitness(n, k * h);
    BezoutScaled(k, x, h, y, n, t);
    MultipleIsDivisible(n, x * t + k * y);
  }

  /**
   The smallest-multiplier theorem: for a modulus `n > 0`, `k * h` is a
   multiple of `n` exactly when `k` is a multiple of `n / gcd(h, n)`.
   */
  lemma MultiplierTheorem(h: nat, n: nat, k: int)
    requires n > 0
    ensures Gcd(h, n) > 0 && n % Gcd(h, n) == 0
    ensures (k * h) % n == 0 <==> k % (n / Gcd(h, n)) == 0
  {
    GcdDividesBoth(h, n);
    var g := Gcd(h, n);
    var u := n / g;
    DividesWitness(g, n);
    DividesWitness(g, h);
    assert n == g * u;
    MulSign(g, u);
    if (k * h) % n == 0 {
      GcdMultipleStep(h, n, k);
      DividesWitness(n, k * g);
      var s := (k * g) / n;
      assert g * k == g * (u * s) by {
        MulRearrange(g, u, 1, s);
      }
      assert g * (k - u * s) == 0;
      MulSign(g, k - u * s);
      MultipleIsDivisible(u, s);
    }
    if k % u == 0 {
      DividesWitness(u, k);
      var s := k / u;
      var hg := h / g;
      assert k * h == (u * s) * (g * hg);
      MulRearrange(u, s, g, hg);
      assert k * h == n * (s * hg);
      MultipleIsDivisible(n, s * hg);
    }
  }

  /** The ceiling of `a / b` for a positive divisor, as Python's `math.ceil(a / b)` on exact values. */
  function CeilDiv(a: int, b: int): (r: int)
    requires b > 0
    ensures (r - 1) * b < a <= r * b
  {
    var q := (-a) / b;
    assert -a == b * q + (-a) % b;
    -q
  }

  /** The smallest multiple of `m` strictly greater than `x`, computed as `((x // m) + 1) * m`. */
  function NextMultiple(x: int, m: int): (r: int)
    requires m > 0
    ensures r % m == 0 && x < r <= x + m
  {
    var q := x / m;
    assert x == m * q + x % m;
    MultipleIsDivisible(m, q + 1);
    MulDistributes(m, q, 1);
    (q + 1) * m
  }

  /** After a multiple of `m`, the next one is exactly `m` further. */
  lemma NextMultipleOfMultiple(x: int, m: int)
    requires m > 0 && x % m == 0
    ensures NextMultiple(x, m) == x + m
  {
    DividesWitness(m, x);
  }

  /** The largest multiple of `m` strictly below `x`, computed as `((x - 1) // m) * m`. */
  function PrevMultiple(x: int, m: int): (r: int)
    requires m > 0
    ensures r % m == 0 && r < x <= r + m
  {
    var q := (x - 1) / m;
    assert x - 1 == m * q + (x - 1) % m;
    MultipleIsDivisible(m, q);
    MulDistributes(m, q, 1);
    q * m
  }

  /** No multiple of `m` lies strictly between `x` and `NextMultiple(x, m)`. */
  lemma NextMultipleIsLeast(x: int, m: int, y: int)
    requires m > 0 && x < y < NextMultiple(x, m)
    ensures y % m != 0
  {
    var q := x / m;
    assert x == m * q + x % m;
    if y % m == 0 {
      DividesWitness(m, y);
      var a := y / m;
      assert m * (a - q) == y - m * q;
      assert m * (q + 1 - a) == m * (q + 1) - y;
      MulSign(m, a - q);
      MulSign(m, q + 1 - a);
    }
  }

  /** No multiple of `m` lies strictly between `PrevMultiple(x, m)` and `x`. */
  lemma PrevMultipleIsGreatest(x: int, m: int, y: int)
    requires m > 0 && PrevMultiple(x, m) < y < x
    ensures y % m != 0
  {
    var q := (x - 1) / m;
    assert x - 1 == m * q + (x - 1) % m;
    if y % m == 0 {
      DividesWitness(m, y);
      var a := y / m;
      assert m * (a - q) == y - m * q;
      assert m * (q + 1 - a) == m * (q + 1) - y;
      MulSign(m, a - q);
      MulSign(m, q + 1 - a);
    }
  }
}

=== FILE: chart.dfy ===
/**
 The neighbourhood scan behind the local distribution chart (the newer
 revision, which also reports the next perfect count): a window of nine
 stack sizes around the current one, each annotated by the engine, framed by
 at most one zero-waste marker below and one above.
 */
module Chart {
  import Arith
  import opened Core

  /** One row of the chart: a stack size and what the engine says about it. */
  datatype ChartEntry = ChartEntry(
    count: nat,
    demons: real,
    waste: nat,
    lords: int,
    isCurrent: bool,
    isSpecial: bool
  )

  /** What the scan returns: the engine's result at the (clamped) current count, the rows, and the next perfect count. */
  datatype ChartData = ChartData(current: FarmResult, chart: seq<ChartEntry>, nextPerfectCount: int)

  /** The row for `count` units, annotated with the engine's HP yield, waste and Pit Lords needed. */
  function Entry(unitHp: nat, count: nat, pitLordCount: int, isCurrent: bool, isSpecial: bool): (e: ChartEntry)
    ensures e.count == count && e.isCurrent == isCurrent && e.isSpecial == isSpecial
    ensures e.waste == 0 <==> ZeroWaste(unitHp, count)
  {
    var r := CalculateDemonFarm(unitHp, count, pitLordCount);
    ChartEntry(count, r.maxDemonsFromHp, r.wastedHp, r.neededPitLords, isCurrent, isSpecial)
  }

  /** A row carries exactly the engine's figures for its own count. */
  ghost predicate Annotated(unitHp: nat, pitLordCount: int, e: ChartEntry) {
    var r := CalculateDemonFarm(unitHp, e.count, pitLordCount);
    e.demons == r.maxDemonsFromHp && e.waste == r.wastedHp && e.lords == r.neededPitLords
  }

  lemma EntryAnnotated(unitHp: nat, count: nat, pitLordCount: int, isCurrent: bool, isSpecial: bool)
    ensures Annotated(unitHp, pitLordCount, Entry(unitHp, count, pitLordCount, isCurrent, isSpecial))
  {
  }

  /** An annotated row shows zero waste exactly when its count converts with zero waste. */
  lemma AnnotatedWaste(unitHp: nat, pitLordCount: int, e: ChartEntry)
    requires Annotated(unitHp, pitLordCount, e)
    ensures e.waste == 0 <==> ZeroWaste(unitHp, e.count)
  {
  }

  /** A negative unit count is treated as zero. */
  function Clamp(unitCount: int): (c: nat)
    ensures unitCount >= 0 ==> c == unitCount
    ensures unitCount < 0 ==> c == 0
  {
    if unitCount < 0 then 0 else unitCount
  }

  /**
   The next perfect count after `count`, given the perfect stack `m` and the
   waste at `count`; -1 when there is no perfect stack.
   */
  function NextPerfectCount(count: nat, m: nat, waste: int): (r: int)
    ensures r == -1 <==> m == 0
    ensures m > 0 ==> count < r <= count + m
  {
    if m > 0 then
      if waste == 0 then count + m else Arith.NextMultiple(count, m)
    else -1
  }

  /** The lowest count the window shows around `c`. */
  function WindowStart(c: nat): nat {
    if c >= 4 then c - 4 else 0
  }

  /** The rows for offsets `offset..4` around `c`, negative counts skipped. */
  function WindowFrom(unitHp: nat, c: nat, pitLordCount: int, offset: int): seq<ChartEntry>
    requires -4 <= offset <= 5
    decreases 5 - offset
  {
    if offset > 4 then []
    else
      var rest := WindowFrom(unitHp, c, pitLordCount, offset + 1);
      if c + offset < 0 then rest
      else [Entry(unitHp, c + offset, pitLordCount, offset == 0, false)] + rest
  }

  /** The regular rows for the counts `lo .. c + 4`, the row at `c` marked current. */
  function Run(unitHp: nat, c: nat, pitLordCount: int, lo: nat): (w: seq<ChartEntry>)
    requires lo <= c + 5
    ensures |w| == c + 5 - lo
  {
    seq(c + 5 - lo, i requires 0 <= i => Entry(unitHp, lo + i, pitLordCount, lo + i == c, false))
  }

  /** A run is its first row followed by the run one count further on. */
  lemma RunCons(unitHp: nat, c: nat, pitLordCount: int, lo: nat)
    requires lo <= c + 4
    ensures Run(unitHp, c, pitLordCount, lo) == [Entry(unitHp, lo, pitLordCount, lo == c, false)] + Run(unitHp, c, pitLordCount, lo + 1)
  {
    var r, tail := Run(unitHp, c, pitLordCount, lo), Run(unitHp, c, pitLordCount, lo + 1);
    var s := [Entry(unitHp, lo, pitLordCount, lo == c, false)] + tail;
    forall i | 0 <= i < |r|
      ensures r[i] == s[i]
    {
      if i > 0 {
        assert s[i] == tail[i - 1];
      }
    }
  }

  /** The offset loop from `offset` on yields the run from the first non-negative count it visits. */
  lemma {:induction false} WindowFromIsRun(unitHp: nat, c: nat, pitLordCount: int, offset: int)
    requires -4 <= offset <= 5
    ensures WindowFrom(unitHp, c, pitLordCount, offset) == Run(unitHp, c, pitLordCount, if c + offset < 0 then 0 else c + offset)
    decreases 5 - offset
  {
    if offset <= 4 {
      WindowFromIsRun(unitHp, c, pitLordCount, offset + 1);
      if c + offset >= 0 {
        RunCons(unitHp, c, pitLordCount, c + offset);
      }
    }
  }

  /** The regular rows: offsets -4 to 4 around `c`, negative counts skipped. */
  function Window(unitHp: nat, c: nat, pitLordCount: int): seq<ChartEntry> {
    Run(unitHp, c, pitLordCount, WindowStart(c))
  }

  /** The offset loop over `-4 .. 4` yields exactly the window. */
  lemma WindowIsOffsetLoop(unitHp: nat, c: nat, pitLordCount: int)
    ensures WindowFrom(unitHp, c, pitLordCount, -4) == Window(unitHp, c, pitLordCount)
  {
    WindowFromIsRun(unitHp, c, pitLordCount, -4);
  }

  /** The set of counts the rows of `s` show. */
  function Counts(s: seq<ChartEntry>): set<int> {
    set i | 0 <= i < |s| :: s[i].count
  }

  /**
   The window runs ascending by one from the first non-negative count of
   `c - 4 .. c + 4` to `c + 4`: between five and nine rows, none a marker,
   and exactly one current row, the one at `c`.
   */
  lemma WindowShape(unitHp: nat, c: nat, pitLordCount: int)
    ensures var w := Window(unitHp, c, pitLordCount);
      && 5 <= |w| <= 9
      && (c >= 4 ==> |w| == 9)
      && w[0].count == WindowStart(c) && w[|w| - 1].count == c + 4
      && (forall i :: 0 <= i < |w| ==> w[i].count == WindowStart(c) + i && !w[i].isSpecial)
      && (forall i :: 0 <= i < |w| ==> (w[i].isCurrent <==> w[i].count == c))
      && w[c - WindowStart(c)].isCurrent
  {
    var w, lo := Window(unitHp, c, pitLordCount), WindowStart(c);
    forall i | 0 <= i < |w|
      ensures w[i] == Entry(unitHp, lo + i, pitLordCount, lo + i == c, false)
    {
    }
  }

  /** A window row shows zero waste exactly when its count converts with zero waste. */
  lemma WindowWaste(unitHp: nat, c: nat, pitLordCount: int, i: int)
    requires 0 <= i < |Window(unitHp, c, pitLordCount)|
    ensures var e := Window(unitHp, c, pitLordCount)[i]; e.waste == 0 <==> ZeroWaste(unitHp, e.count)
  {
    var lo := WindowStart(c);
    assert Window(unitHp, c, pitLordCount)[i] == Entry(unitHp, lo + i, pitLordCount, lo + i == c, false);
  }

  /** Each window row carries the engine's figures for its own count. */
  lemma WindowAnnotated(unitHp: nat, c: nat, pitLordCount: int)
    ensures var w := Window(unitHp, c, pitLordCount);
      forall i :: 0 <= i < |w| ==> Annotated(unitHp, pitLordCount, w[i])
  {
    var w := Window(unitHp, c, pitLordCount);
    var lo := WindowStart(c);
    forall i | 0 <= i < |w|
      ensures Annotated(unitHp, pitLordCount, w[i])
    {
      EntryAnnotated(unitHp, lo + i, pitLordCount, lo + i == c, false);
    }
  }

  /** The window shows exactly the non-negative counts among `c - 4 .. c + 4`. */
  lemma WindowCounts(unitHp: nat, c: nat, pitLordCount: int)
    ensures forall n :: n in Counts(Window(unitHp, c, pitLordCount)) <==> c - 4 <= n <= c + 4 && n >= 0
  {
    var w := Window(unitHp, c, pitLordCount);
    WindowShape(unitHp, c, pitLordCount);
    var lo := WindowStart(c);
    forall n | c - 4 <= n <= c + 4 && n >= 0
      ensures n in Counts(w)
    {
      assert w[n - lo].count == n;
    }
  }

  /** Prepends the marker at the largest multiple of `m` below the first row, when that row is not already a first perfect stack. */
  function WithLowerMarker(unitHp: nat, pitLordCount: int, m: nat, w: seq<ChartEntry>): seq<ChartEntry>
    requires m > 0 && |w| > 0
  {
    var first := w[0];
    if first.count > 0 && (first.waste > 0 || first.count > m) then
      var below := Arith.PrevMultiple(first.count, m);
      if below >= 0 && below < first.count then
        [Entry(unitHp, below, pitLordCount, false, true)] + w
      else w
    else w
  }

  /** Appends the marker at `next` when it lies beyond the last row. */
  function WithUpperMarker(unitHp: nat, pitLordCount: int, next: int, w: seq<ChartEntry>): seq<ChartEntry>
    requires |w| > 0
  {
    var last := w[|w| - 1];
    if next > last.count then w + [Entry(unitHp, next, pitLordCount, false, true)] else w
  }

  /** The scan: clamp, evaluate the current count, find the next perfect count, build the window, add the markers. */
  function CalculateChartData(unitHp: nat, unitCount: int, pitLordCount: int): (d: ChartData)
    ensures d.current == CalculateDemonFarm(unitHp, Clamp(unitCount), pitLordCount)
    ensures |d.chart| >= 5
  {
    var c := Clamp(unitCount);
    var current := CalculateDemonFarm(unitHp, c, pitLordCount);
    var m := current.perfectGrindUnits;
    var next := NextPerfectCount(c, m, current.wastedHp);
    var w := Window(unitHp, c, pitLordCount);
    WindowShape(unitHp, c, pitLordCount);
    var chart :=
      if m > 0 then WithUpperMarker(unitHp, pitLordCount, next, WithLowerMarker(unitHp, pitLordCount, m, w))
      else w;
    ChartData(current, chart, next)
  }

  /** Counts strictly increase along the rows. */
  ghost predicate StrictlyAscending(s: seq<ChartEntry>) {
    forall i, j :: 0 <= i < j < |s| ==> s[i].count < s[j].count
  }

  /** `p` is the greatest zero-waste count strictly below `x`. */
  ghost predicate GreatestPerfectBelow(unitHp: nat, p: int, x: int) {
    p < x && ZeroWaste(unitHp, p) && forall k :: p < k < x ==> !ZeroWaste(unitHp, k)
  }

  /** `p` is the least zero-waste count strictly above `x`. */
  ghost predicate LeastPerfectAbove(unitHp: nat, p: int, x: int) {
    x < p && ZeroWaste(unitHp, p) && forall k :: x < k < p ==> !ZeroWaste(unitHp, k)
  }

  /** The least perfect count above `x` is also the least above any `y` between `x` and it. */
  lemma LeastPerfectAboveShift(unitHp: nat, p: int, x: int, y: int)
    requires LeastPerfectAbove(unitHp, p, x) && x <= y < p
    ensures LeastPerfectAbove(unitHp, p, y)
  {
  }

  /** There is only one least perfect count above `x`. */
  lemma LeastPerfectAboveUnique(unitHp: nat, p: int, q: int, x: int)
    requires LeastPerfectAbove(unitHp, p, x) && LeastPerfectAbove(unitHp, q, x)
    ensures p == q
  {
  }

  /** The largest multiple of the perfect stack below `x` is the greatest zero-waste count below it. */
  lemma PrevMultipleIsGreatestPerfect(unitHp: nat, x: int)
    ensures GreatestPerfectBelow(unitHp, Arith.PrevMultiple(x, PerfectUnits(unitHp)), x)
  {
    var m := PerfectUnits(unitHp);
    var p := Arith.PrevMultiple(x, m);
    ZeroWasteIffPerfectMultiple(unitHp, p);
    forall k | p < k < x
      ensures !ZeroWaste(unitHp, k)
    {
      Arith.PrevMultipleIsGreatest(x, m, k);
      ZeroWasteIffPerfectMultiple(unitHp, k);
    }
  }

  /** The smallest multiple of the perfect stack above `x` is the least zero-waste count above it. */
  lemma NextMultipleIsLeastPerfect(unitHp: nat, x: int)
    ensures LeastPerfectAbove(unitHp, Arith.NextMultiple(x, PerfectUnits(unitHp)), x)
  {
    var m := PerfectUnits(unitHp);
    var p := Arith.NextMultiple(x, m);
    ZeroWasteIffPerfectMultiple(unitHp, p);
    forall k | x < k < p
      ensures !ZeroWaste(unitHp, k)
    {
      Arith.NextMultipleIsLeast(x, m, k);
      ZeroWasteIffPerfectMultiple(unitHp, k);
    }
  }

  /**
   The next perfect count is the least zero-waste count strictly above the
   (clamped) current count, at most one perfect stack away, and never the
   current count itself, even when that one is already perfect.
   */
  lemma NextPerfectCountIsLeastPerfectAbove(unitHp: nat, unitCount: int, pitLordCount: int)
    ensures var c, d := Clamp(unitCount), CalculateChartData(unitHp, unitCount, pitLordCount);
      var m := d.current.perfectGrindUnits;
      && d.nextPerfectCount != -1
      && c < d.nextPerfectCount <= c + m
      && d.nextPerfectCount % m == 0
      && LeastPerfectAbove(unitHp, d.nextPerfectCount, c)
      && (d.current.wastedHp == 0 ==> d.nextPerfectCount == c + m)
  {
    var c, d := Clamp(unitCount), CalculateChartData(unitHp, unitCount, pitLordCount);
    var m := PerfectUnits(unitHp);
    var n := Arith.NextMultiple(c, m);
    NextMultipleIsLeastPerfect(unitHp, c);
    if d.current.wastedHp == 0 {
      assert ZeroWaste(unitHp, c);
      ZeroWasteIffPerfectMultiple(unitHp, c);
      Arith.NextMultipleOfMultiple(c, m);
    }
    assert d.nextPerfectCount == n;
  }

  /** A negative input is clamped to zero units, which waste nothing, so the next perfect count is the perfect stack itself. */
  lemma NegativeInputNextPerfect(unitHp: nat, unitCount: int, pitLordCount: int)
    requires unitCount < 0
    ensures CalculateChartData(unitHp, unitCount, pitLordCount).nextPerfectCount == PerfectUnits(unitHp)
  {
    var d := CalculateChartData(unitHp, unitCount, pitLordCount);
    assert d.current == CalculateDemonFarm(unitHp, 0, pitLordCount);
    assert 0 * unitHp == 0;
    assert d.current.totalHpPool == 0;
    assert d.current.wastedHp == 0;
    NextPerfectCountIsLeastPerfectAbove(unitHp, unitCount, pitLordCount);
  }

  /**
   The lower marker on rows whose first row shows zero waste exactly when its
   count converts with zero waste: prepended exactly when the first count is
   above zero and not the perfect stack itself, at the greatest zero-waste
   count below it; otherwise the rows are left alone.
   */
  lemma LowerMarkerPlacement(unitHp: nat, pitLordCount: int, w: seq<ChartEntry>)
    requires |w| > 0 && (w[0].waste == 0 <==> ZeroWaste(unitHp, w[0].count))
    ensures var m := PerfectUnits(unitHp);
      var r := WithLowerMarker(unitHp, pitLordCount, m, w);
      var first := w[0].count;
      && (first > 0 && first != m ==>
            && |r| == |w| + 1 && r[1..] == w
            && r[0].isSpecial && !r[0].isCurrent && Annotated(unitHp, pitLordCount, r[0])
            && r[0].count % m == 0
            && GreatestPerfectBelow(unitHp, r[0].count, first))
      && (first == 0 || first == m ==> r == w)
  {
    var m := PerfectUnits(unitHp);
    var first := w[0].count;
    ZeroWasteIffPerfectMultiple(unitHp, first);
    Arith.MultipleIsDivisible(m, 1);
    if 0 < first < m {
      PerfectStackIsMinimal(unitHp, first);
    }
    var below := Arith.PrevMultiple(first, m);
    PrevMultipleIsGreatestPerfect(unitHp, first);
    EntryAnnotated(unitHp, if below < 0 then 0 else below, pitLordCount, false, true);
  }

  /** The lower marker leaves the last window row last. */
  lemma LowerMarkerKeepsLast(unitHp: nat, c: nat, pitLordCount: int)
    ensures var w := Window(unitHp, c, pitLordCount);
      var r := WithLowerMarker(unitHp, pitLordCount, PerfectUnits(unitHp), w);
      |r| > 0 && r[|r| - 1] == w[|w| - 1] && r[|r| - 1].count == c + 4
  {
    WindowShape(unitHp, c, pitLordCount);
  }

  /** The newer chart is the window with its lower marker, followed by the marker at the next perfect count when that lies beyond `c + 4`. */
  lemma NewerChartFromLower(unitHp: nat, unitCount: int, pitLordCount: int)
    ensures var c, d := Clamp(unitCount), CalculateChartData(unitHp, unitCount, pitLordCount);
      var r := WithLowerMarker(unitHp, pitLordCount, PerfectUnits(unitHp), Window(unitHp, c, pitLordCount));
      d.chart == if d.nextPerfectCount > c + 4 then r + [Entry(unitHp, d.nextPerfectCount, pitLordCount, false, true)] else r
  {
    LowerMarkerKeepsLast(unitHp, Clamp(unitCount), pitLordCount);
  }

  /** The upper marker is appended exactly when no count of the window above the current one is perfect. */
  lemma UpperMarkerWhenWindowHasNoPerfectAbove(unitHp: nat, unitCount: int, pitLordCount: int)
    ensures var c, d := Clamp(unitCount), CalculateChartData(unitHp, unitCount, pitLordCount);
      d.nextPerfectCount > c + 4 <==> forall k :: c < k <= c + 4 ==> !ZeroWaste(unitHp, k)
  {
    var c, d := Clamp(unitCount), CalculateChartData(unitHp, unitCount, pitLordCount);
    NextPerfectCountIsLeastPerfectAbove(unitHp, unitCount, pitLordCount);
  }

  /**
   Where the rows come from: an optional lower marker, then the window
   unchanged, then an optional upper marker at the next perfect count.
   */
  lemma ChartLayout(unitHp: nat, unitCount: int, pitLordCount: int)
    ensures var c, d := Clamp(unitCount), CalculateChartData(unitHp, unitCount, pitLordCount);
      var chart, w, m := d.chart, Window(unitHp, c, pitLordCount), PerfectUnits(unitHp);
      var lower := WindowStart(c) > 0 && WindowStart(c) != m;
      var upper := d.nextPerfectCount > c + 4;
      var k := if lower then 1 else 0;
      && |chart| == k + |w| + (if upper then 1 else 0)
      && chart[k..k + |w|] == w
      && (lower ==> chart[0].isSpecial && !chart[0].isCurrent && Annotated(unitHp, pitLordCount, chart[0])
                    && GreatestPerfectBelow(unitHp, chart[0].count, WindowStart(c)))
      && (upper ==> chart[|chart| - 1].isSpecial && !chart[|chart| - 1].isCurrent
                    && Annotated(unitHp, pitLordCount, chart[|chart| - 1])
                    && chart[|chart| - 1].count == d.nextPerfectCount)
  {
    var c, d := Clamp(unitCount), CalculateChartData(unitHp, unitCount, pitLordCount);
    var w, m := Window(unitHp, c, pitLordCount), PerfectUnits(unitHp);
    WindowShape(unitHp, c, pitLordCount);
    WindowWaste(unitHp, c, pitLordCount, 0);
    LowerMarkerPlacement(unitHp, pitLordCount, w);
    var r := WithLowerMarker(unitHp, pitLordCount, m, w);
    assert r[|r| - 1] == w[|w| - 1];
    var next := d.nextPerfectCount;
    NextPerfectCountIsLeastPerfectAbove(unitHp, unitCount, pitLordCount);
    if next > c + 4 {
      EntryAnnotated(unitHp, next, pitLordCount, false, true);
      assert d.chart == r + [Entry(unitHp, next, pitLordCount, false, true)];
    } else {
      assert d.chart == r;
    }
  }

  /** A strictly ascending run framed by one smaller row before and one larger row after stays strictly ascending. */
  lemma FramedAscending(w: seq<ChartEntry>, chart: seq<ChartEntry>, k: nat, upper: bool)
    requires StrictlyAscending(w) && |w| > 0 && k <= 1
    requires |chart| == k + |w| + (if upper then 1 else 0) && chart[k..k + |w|] == w
    requires k == 1 ==> chart[0].count < w[0].count
    requires upper ==> chart[|chart| - 1].count > w[|w| - 1].count
    ensures StrictlyAscending(chart)
  {
    forall i | 0 <= i < |w|
      ensures chart[k + i] == w[i]
    {
      assert chart[k..k + |w|][i] == chart[k + i];
    }
    var lo, hi := w[0].count, w[|w| - 1].count;
    forall t | 0 <= t < |w|
      ensures lo <= w[t].count <= hi
    {
      if 0 < t { assert w[0].count < w[t].count; }
      if t < |w| - 1 { assert w[t].count < w[|w| - 1].count; }
    }
    forall i, j | 0 <= i < j < |chart|
      ensures chart[i].count < chart[j].count
    {
      if k <= i && j < k + |w| {
        assert chart[i] == w[i - k] && chart[j] == w[j - k];
      } else if i < k {
        if j < k + |w| { assert chart[j] == w[j - k]; }
      } else {
        assert chart[i] == w[i - k];
      }
    }
  }

  /** Each row is either a window row in place or one of the two markers at the ends. */
  lemma ChartRowOrigin(unitHp: nat, unitCount: int, pitLordCount: int, i: int)
    requires 0 <= i < |CalculateChartData(unitHp, unitCount, pitLordCount).chart|
    ensures var c, d := Clamp(unitCount), CalculateChartData(unitHp, unitCount, pitLordCount);
      var chart, w, m := d.chart, Window(unitHp, c, pitLordCount), PerfectUnits(unitHp);
      var k := if WindowStart(c) > 0 && WindowStart(c) != m then 1 else 0;
      || (k <= i < k + |w| && chart[i] == w[i - k])
      || (i == 0 && k == 1 && chart[i].isSpecial && !chart[i].isCurrent && Annotated(unitHp, pitLordCount, chart[i])
          && GreatestPerfectBelow(unitHp, chart[i].count, WindowStart(c)))
      || (i == |chart| - 1 && chart[i].isSpecial && !chart[i].isCurrent && Annotated(unitHp, pitLordCount, chart[i])
          && chart[i].count == d.nextPerfectCount && d.nextPerfectCount > c + 4)
  {
    var c, d := Clamp(unitCount), CalculateChartData(unitHp, unitCount, pitLordCount);
    var chart, w, m := d.chart, Window(unitHp, c, pitLordCount), PerfectUnits(unitHp);
    ChartLayout(unitHp, unitCount, pitLordCount);
    var k := if WindowStart(c) > 0 && WindowStart(c) != m then 1 else 0;
    if k <= i < k + |w| {
      assert chart[k..k + |w|][i - k] == chart[i];
    }
  }

  /** The rows of the chart are strictly ascending by count. */
  lemma ChartAscending(unitHp: nat, unitCount: int, pitLordCount: int)
    ensures StrictlyAscending(CalculateChartData(unitHp, unitCount, pitLordCount).chart)
  {
    var c, d := Clamp(unitCount), CalculateChartData(unitHp, unitCount, pitLordCount);
    var chart, w, m := d.chart, Window(unitHp, c, pitLordCount), PerfectUnits(unitHp);
    ChartLayout(unitHp, unitCount, pitLordCount);
    WindowShape(unitHp, c, pitLordCount);
    var k := if WindowStart(c) > 0 && WindowStart(c) != m then 1 else 0;
    FramedAscending(w, chart, k, d.nextPerfectCount > c + 4);
  }

  /** Every row carries the engine's figures for its own count. */
  lemma ChartAnnotated(unitHp: nat, unitCount: int, pitLordCount: int)
    ensures var chart := CalculateChartData(unitHp, unitCount, pitLordCount).chart;
      forall i :: 0 <= i < |chart| ==> Annotated(unitHp, pitLordCount, chart[i])
  {
    var c, chart := Clamp(unitCount), CalculateChartData(unitHp, unitCount, pitLordCount).chart;
    WindowAnnotated(unitHp, c, pitLordCount);
    forall i | 0 <= i < |chart|
      ensures Annotated(unitHp, pitLordCount, chart[i])
    {
      ChartRowOrigin(unitHp, unitCount, pitLordCount, i);
    }
  }

  /**
   Exactly the row at the clamped count is current; markers stand only at
   the two ends, are never current and always have zero waste.
   */
  lemma ChartRows(unitHp: nat, unitCount: int, pitLordCount: int)
    ensures var c, chart := Clamp(unitCount), CalculateChartData(unitHp, unitCount, pitLordCount).chart;
      && (forall i :: 0 <= i < |chart| ==> (chart[i].isCurrent <==> chart[i].count == c))
      && (forall i :: 0 <= i < |chart| && chart[i].isSpecial ==>
            (i == 0 || i == |chart| - 1) && !chart[i].isCurrent && chart[i].waste == 0)
  {
    var c, chart := Clamp(unitCount), CalculateChartData(unitHp, unitCount, pitLordCount).chart;
    WindowShape(unitHp, c, pitLordCount);
    forall i | 0 <= i < |chart|
      ensures chart[i].isCurrent <==> chart[i].count == c
      ensures chart[i].isSpecial ==> (i == 0 || i == |chart| - 1) && !chart[i].isCurrent && chart[i].waste == 0
    {
      ChartRowOrigin(unitHp, unitCount, pitLordCount, i);
      var w, m := Window(unitHp, c, pitLordCount), PerfectUnits(unitHp);
      var k := if WindowStart(c) > 0 && WindowStart(c) != m then 1 else 0;
      if k <= i < k + |w| && chart[i] == w[i - k] {
        assert w[i - k].isCurrent <==> w[i - k].count == c;
        assert !w[i - k].isSpecial;
      } else {
        NextPerfectCountIsLeastPerfectAbove(unitHp, unitCount, pitLordCount);
        assert chart[i].isSpecial && Annotated(unitHp, pitLordCount, chart[i]) && ZeroWaste(unitHp, chart[i].count);
        AnnotatedWaste(unitHp, pitLordCount, chart[i]);
      }
    }
  }

  /** The current count always appears in the chart, and at most one row is current. */
  lemma ChartHasOneCurrent(unitHp: nat, unitCount: int, pitLordCount: int)
    ensures var c, chart := Clamp(unitCount), CalculateChartData(unitHp, unitCount, pitLordCount).chart;
      && c in Counts(chart)
      && forall i, j :: 0 <= i < |chart| && 0 <= j < |chart| && chart[i].isCurrent && chart[j].isCurrent ==> i == j
  {
    var c, d := Clamp(unitCount), CalculateChartData(unitHp, unitCount, pitLordCount);
    var chart, w, m := d.chart, Window(unitHp, c, pitLordCount), PerfectUnits(unitHp);
    WindowShape(unitHp, c, pitLordCount);
    var k := if WindowStart(c) > 0 && WindowStart(c) != m then 1 else 0;
    ChartRowOrigin(unitHp, unitCount, pitLordCount, k + (c - WindowStart(c)));
    ChartRows(unitHp, unitCount, pitLordCount);
    ChartAscending(unitHp, unitCount, pitLordCount);
  }

  /** The current row sits at the clamped count and shows zero waste exactly when that count converts with zero waste. */
  lemma CurrentRow(unitHp: nat, unitCount: int, pitLordCount: int, i: int)
    requires 0 <= i < |CalculateChartData(unitHp, unitCount, pitLordCount).chart|
    requires CalculateChartData(unitHp, unitCount, pitLordCount).chart[i].isCurrent
    ensures var e := CalculateChartData(unitHp, unitCount, pitLordCount).chart[i];
      e.count == Clamp(unitCount) && (e.waste == 0 <==> ZeroWaste(unitHp, e.count))
  {
    var e := CalculateChartData(unitHp, unitCount, pitLordCount).chart[i];
    ChartRows(unitHp, unitCount, pitLordCount);
    ChartAnnotated(unitHp, unitCount, pitLordCount);
    AnnotatedWaste(unitHp, pitLordCount, e);
  }
}

=== FILE: core.dfy ===
/** The two game constants of the demon-farming calculator. */
module Config {
  /** Hit points one demon costs. */
  const DEMON_HP: nat := 35
  /** Hit points one Pit Lord grinds per use. */
  const PIT_LORD_GRIND_RATE: nat := 50
}

/**
 The conversion engine: turning a stack of units into demons, bounded by the
 number of Pit Lords available, and the "perfect stack" that converts with
 no hit points left over.
 */
module Core {
  import opened Config
  import Arith

  /** Everything one call of the engine reports. */
  datatype FarmResult = FarmResult(
    unitHp: nat,
    unitCount: int,
    pitLordCount: int,
    totalHpPool: int,
    maxDemonsFromHp: real,
    maxDemonsFromLords: real,
    actualDemonsGained: real,
    neededPitLords: int,
    wastedHp: nat,
    perfectGrindUnits: nat,
    perfectGrindHp: nat,
    perfectGrindLords: nat
  )

  /** A stack of `count` units of `hp` hit points converts into demons with nothing left over. */
  predicate ZeroWaste(hp: nat, count: int) {
    (count * hp) % DEMON_HP == 0
  }

  /** The minimal positive stack size that converts with zero waste: `35 / gcd(hp, 35)`. */
  function PerfectUnits(hp: nat): (u: nat)
    ensures u > 0 && DEMON_HP % u == 0
    ensures ZeroWaste(hp, u)
  {
    Arith.MultiplierTheorem(hp, DEMON_HP, 1);
    var g := Arith.Gcd(hp, DEMON_HP);
    Arith.DividesWitness(g, DEMON_HP);
    Arith.MulSign(g, DEMON_HP / g);
    Arith.MultiplierTheorem(hp, DEMON_HP, DEMON_HP / g);
    Arith.MultipleIsDivisible(DEMON_HP / g, 1);
    Arith.MultipleIsDivisible(g, DEMON_HP / g);
    Arith.MultipleIsDivisible(DEMON_HP / g, g);
    DEMON_HP / g
  }

  /**
   The engine: pool, the two demon yields and the binding one, the Pit Lords
   the whole pool needs, the wasted remainder and the perfect stack.
   */
  function CalculateDemonFarm(unitHp: nat, unitCount: int, pitLordCount: int): (r: FarmResult)
    ensures r.unitHp == unitHp && r.unitCount == unitCount && r.pitLordCount == pitLordCount
    ensures r.totalHpPool == unitCount * unitHp
    ensures r.maxDemonsFromHp * (DEMON_HP as real) == r.totalHpPool as real
    ensures r.maxDemonsFromLords * (DEMON_HP as real) == (pitLordCount * PIT_LORD_GRIND_RATE) as real
    ensures r.actualDemonsGained <= r.maxDemonsFromHp && r.actualDemonsGained <= r.maxDemonsFromLords
    ensures r.actualDemonsGained == r.maxDemonsFromHp || r.actualDemonsGained == r.maxDemonsFromLords
    ensures (r.neededPitLords - 1) * PIT_LORD_GRIND_RATE < r.totalHpPool <= r.neededPitLords * PIT_LORD_GRIND_RATE
    ensures r.wastedHp < DEMON_HP && (r.totalHpPool - r.wastedHp) % DEMON_HP == 0
    ensures r.perfectGrindUnits > 0 && DEMON_HP % r.perfectGrindUnits == 0
    ensures r.perfectGrindHp == r.perfectGrindUnits * unitHp && r.perfectGrindHp % DEMON_HP == 0
    ensures (r.perfectGrindLords - 1) * PIT_LORD_GRIND_RATE < r.perfectGrindHp <= r.perfectGrindLords * PIT_LORD_GRIND_RATE
  {
    var pool := unitCount * unitHp;
    var fromHp := (pool as real) / (DEMON_HP as real);
    var fromLords := ((pitLordCount * PIT_LORD_GRIND_RATE) as real) / (DEMON_HP as real);
    var wasted := pool % DEMON_HP;
    Arith.RemainderLeavesMultiple(pool, DEMON_HP);
    var units := PerfectUnits(unitHp);
    var perfectHp := units * unitHp;
    FarmResult(
      unitHp, unitCount, pitLordCount,
      pool,
      fromHp,
      fromLords,
      if fromHp <= fromLords then fromHp else fromLords,
      Arith.CeilDiv(pool, PIT_LORD_GRIND_RATE),
      wasted,
      units,
      perfectHp,
      Arith.CeilDiv(perfectHp, PIT_LORD_GRIND_RATE)
    )
  }

  /** A count converts with zero waste exactly when it is a multiple of the perfect stack. */
  lemma ZeroWasteIffPerfectMultiple(hp: nat, count: int)
    ensures ZeroWaste(hp, count) <==> count % PerfectUnits(hp) == 0
  {
    Arith.MultiplierTheorem(hp, DEMON_HP, count);
  }

  /** No positive stack smaller than the perfect stack converts with zero waste. */
  lemma PerfectStackIsMinimal(hp: nat, k: int)
    requires 0 < k < PerfectUnits(hp)
    ensures !ZeroWaste(hp, k)
  {
    ZeroWasteIffPerfectMultiple(hp, k);
    Arith.DivModUnique(k, PerfectUnits(hp), 0, k);
  }

  /** The engine's wasted HP is zero exactly when the stack is a multiple of the perfect stack. */
  lemma WasteZeroIffPerfectMultiple(unitHp: nat, unitCount: int, pitLordCount: int)
    ensures var r := CalculateDemonFarm(unitHp, unitCount, pitLordCount);
      r.wastedHp == 0 <==> unitCount % r.perfectGrindUnits == 0
  {
    ZeroWasteIffPerfectMultiple(unitHp, unitCount);
  }

  /** The only positive divisors of 35. */
  lemma DivisorsOfDemonHp(d: int)
    requires Arith.Divides(d, DEMON_HP)
    ensures d == 1 || d == 5 || d == 7 || d == 35
  {
    Arith.DividesWitness(d, DEMON_HP);
    Arith.MulAwayFromZero(d, DEMON_HP / d);
    Arith.MulSign(d, DEMON_HP / d);
    assert 1 <= d <= 35;
    assert d !in {2, 3, 4, 6, 8, 9, 10, 11, 12, 13, 14, 15, 16, 17, 18, 19, 20};
    assert d !in {21, 22, 23, 24, 25, 26, 27, 28, 29, 30, 31, 32, 33, 34};
  }

  /** The perfect stack is one of 1, 5, 7 or 35 units. */
  lemma PerfectUnitsAreDivisorsOfDemonHp(unitHp: nat, unitCount: int, pitLordCount: int)
    ensures var u := CalculateDemonFarm(unitHp, unitCount, pitLordCount).perfectGrindUnits;
      u == 1 || u == 5 || u == 7 || u == 35
  {
    DivisorsOfDemonHp(PerfectUnits(unitHp));
  }

  /** The perfect-stack fields depend on the unit's HP alone, never on the count or the Pit Lords. */
  lemma PerfectStackIndependentOfCount(unitHp: nat, c1: int, l1: int, c2: int, l2: int)
    ensures var r1, r2 := CalculateDemonFarm(unitHp, c1, l1), CalculateDemonFarm(unitHp, c2, l2);
      r1.perfectGrindUnits == r2.perfectGrindUnits
      && r1.perfectGrindHp == r2.perfectGrindHp
      && r1.perfectGrindLords == r2.perfectGrindLords
  {
  }

  /** HP 0 gives gcd(0, 35) = 35, hence a one-unit perfect stack of 0 HP needing no Pit Lord. */
  lemma ZeroHpPerfectStack(unitCount: int, pitLordCount: int)
    ensures var r := CalculateDemonFarm(0, unitCount, pitLordCount);
      r.perfectGrindUnits == 1 && r.perfectGrindHp == 0 && r.perfectGrindLords == 0
      && r.totalHpPool == 0 && r.wastedHp == 0
  {
    assert Arith.Gcd(0, DEMON_HP) == 35;
  }

  /** Without Pit Lords nothing is gained from a non-negative pool. */
  lemma NoLordsNoDemons(unitHp: nat, unitCount: nat)
    ensures CalculateDemonFarm(unitHp, unitCount, 0).actualDemonsGained == 0.0
  {
    var r := CalculateDemonFarm(unitHp, unitCount, 0);
    assert r.totalHpPool >= 0;
    assert r.maxDemonsFromHp >= 0.0;
  }

  /** The worked example of ten 35-HP units and 100 Pit Lords. */
  lemma ExampleTenFullStacks()
    ensures var r := CalculateDemonFarm(35, 10, 100);
      r.totalHpPool == 350 && r.maxDemonsFromHp == 10.0 && r.actualDemonsGained == 10.0
      && r.maxDemonsFromLords == 5000.0 / 35.0 && r.neededPitLords == 7 && r.wastedHp == 0
      && r.perfectGrindUnits == 1 && r.perfectGrindHp == 35 && r.perfectGrindLords == 1
  {
    assert Arith.Gcd(35, DEMON_HP) == 35;
  }

  /** The worked example of seven 10-HP units and no Pit Lords. */
  lemma ExampleSevenTens()
    ensures var r := CalculateDemonFarm(10, 7, 0);
      r.totalHpPool == 70 && r.maxDemonsFromHp == 2.0 && r.actualDemonsGained == 0.0
      && r.neededPitLords == 2 && r.wastedHp == 0
      && r.perfectGrindUnits == 7 && r.perfectGrindHp == 70 && r.perfectGrindLords == 2
  {
    assert Arith.Gcd(10, DEMON_HP) == 5;
  }

  /** Ten-HP units have a perfect stack of 7: gcd(10, 35) = 5. */
  lemma TenHpPerfectStack()
    ensures PerfectUnits(10) == 7
  {
    assert Arith.Gcd(10, DEMON_HP) == 5;
  }
}

=== FILE: display.dfy ===
/**
 The decisions the distribution chart makes about each row before drawing
 it: which rows are skipped, which count as perfect, and which label a row
 gets, in the newer revision (with the "need +diff" hint) and the older one.
 */
module Display {
  import Chart
  import opened Core

  /** A zero-count row that is not the current one is not drawn. */
  predicate Skipped(e: Chart.ChartEntry) {
    e.count == 0 && !e.isCurrent
  }

  /** A row is a perfect stack when it has units and wastes nothing. */
  predicate IsPerfect(e: Chart.ChartEntry) {
    e.waste == 0 && e.count > 0
  }

  /** The label drawn after a row. */
  datatype Label = NoLabel | CurrentAndPerfect | Current | CurrentNeeding(diff: int) | PerfectStack

  /** The newer revision's label: current before perfect, with the distance to the next perfect count on a current, imperfect row. */
  function RowLabel(e: Chart.ChartEntry, nextPerfectCount: int, currentCount: int): (l: Label)
    ensures l.CurrentNeeding? ==> l.diff > 0 && l.diff + currentCount == nextPerfectCount
    ensures e.isCurrent && !IsPerfect(e) && nextPerfectCount > currentCount ==> l == CurrentNeeding(nextPerfectCount - currentCount)
    ensures e.isCurrent && !IsPerfect(e) && nextPerfectCount <= currentCount ==> l == Current
    ensures l.CurrentAndPerfect? || l.Current? || l.CurrentNeeding? <==> e.isCurrent
    ensures l.CurrentAndPerfect? || l.PerfectStack? <==> IsPerfect(e)
  {
    if e.isCurrent && IsPerfect(e) then CurrentAndPerfect
    else if e.isCurrent then
      if nextPerfectCount > currentCount then CurrentNeeding(nextPerfectCount - currentCount) else Current
    else if IsPerfect(e) then PerfectStack
    else NoLabel
  }

  /** The older revision's label: "CURRENT & PERFECT", "CURRENT" or "PERFECT STACK", by that precedence. */
  function LegacyRowLabel(e: Chart.ChartEntry): (l: Label)
    ensures !l.CurrentNeeding?
    ensures l.CurrentAndPerfect? || l.Current? <==> e.isCurrent
    ensures l.CurrentAndPerfect? || l.PerfectStack? <==> IsPerfect(e)
  {
    if e.isCurrent && IsPerfect(e) then CurrentAndPerfect
    else if e.isCurrent then Current
    else if IsPerfect(e) then PerfectStack
    else NoLabel
  }

  /** The older labels are the newer ones with the distance hint dropped. */
  lemma LegacyLabelDropsHint(e: Chart.ChartEntry, nextPerfectCount: int, currentCount: int)
    ensures LegacyRowLabel(e) == match RowLabel(e, nextPerfectCount, currentCount)
      case CurrentNeeding(_) => Current
      case l => l
  {
  }

  /** The rows that are drawn, in chart order. */
  function ShownRows(chart: seq<Chart.ChartEntry>): (s: seq<Chart.ChartEntry>)
    ensures |s| <= |chart|
    ensures forall i :: 0 <= i < |s| ==> !Skipped(s[i]) && s[i] in chart
    ensures forall i :: 0 <= i < |chart| && !Skipped(chart[i]) ==> chart[i] in s
  {
    if |chart| == 0 then []
    else
      var rest := ShownRows(chart[1..]);
      assert forall i :: 1 <= i < |chart| ==> chart[i] == chart[1..][i - 1];
      if Skipped(chart[0]) then rest else [chart[0]] + rest
  }

  /** With no row skipped, every row is drawn. */
  lemma {:induction false} ShownRowsKeepsAll(chart: seq<Chart.ChartEntry>)
    requires forall i :: 0 <= i < |chart| ==> !Skipped(chart[i])
    ensures ShownRows(chart) == chart
  {
    if |chart| > 0 {
      assert forall i :: 0 <= i < |chart| - 1 ==> chart[1..][i] == chart[i + 1];
      ShownRowsKeepsAll(chart[1..]);
    }
  }

  /** In an ascending chart only the first row can have zero units, so drawing drops at most that row. */
  lemma ShownRowsOfAscending(chart: seq<Chart.ChartEntry>)
    requires Chart.StrictlyAscending(chart) && |chart| > 0
    ensures ShownRows(chart) == if Skipped(chart[0]) then chart[1..] else chart
  {
    forall i | 0 < i < |chart|
      ensures !Skipped(chart[i])
    {
      assert chart[0].count < chart[i].count;
    }
    if Skipped(chart[0]) {
      assert forall i :: 0 <= i < |chart| - 1 ==> chart[1..][i] == chart[i + 1];
      ShownRowsKeepsAll(chart[1..]);
    } else {
      ShownRowsKeepsAll(chart);
    }
  }

  /** Drawing an ascending chart never drops a current row. */
  lemma ShownKeepsCurrent(chart: seq<Chart.ChartEntry>)
    requires Chart.StrictlyAscending(chart) && |chart| > 0
    ensures forall i :: 0 <= i < |chart| && chart[i].isCurrent ==> chart[i] in ShownRows(chart)
  {
    ShownRowsOfAscending(chart);
    var shown := ShownRows(chart);
    forall i | 0 <= i < |chart| && chart[i].isCurrent
      ensures chart[i] in shown
    {
      if shown != chart {
        assert shown[i - 1] == chart[i];
      }
    }
  }

  /** A drawn marker that is never current and wastes nothing is labelled a perfect stack. */
  lemma ShownMarkersArePerfect(chart: seq<Chart.ChartEntry>, nextPerfectCount: int, currentCount: int)
    requires forall i :: 0 <= i < |chart| && chart[i].isSpecial ==> !chart[i].isCurrent && chart[i].waste == 0
    ensures var shown := ShownRows(chart);
      forall i :: 0 <= i < |shown| && shown[i].isSpecial ==> RowLabel(shown[i], nextPerfectCount, currentCount) == PerfectStack
  {
  }

  /**
   Drawing the newer chart drops at most its first row (a row of zero units
   that is not current), never the current row, and every marker that is
   drawn is labelled a perfect stack.
   */
  lemma ShownChartRows(unitHp: nat, unitCount: int, pitLordCount: int)
    ensures var d := Chart.CalculateChartData(unitHp, unitCount, pitLordCount);
      var shown := ShownRows(d.chart);
      && (shown == d.chart || (shown == d.chart[1..] && d.chart[0].count == 0 && !d.chart[0].isCurrent))
      && (forall i :: 0 <= i < |d.chart| && d.chart[i].isCurrent ==> d.chart[i] in shown)
      && (forall i :: 0 <= i < |shown| && shown[i].isSpecial ==> RowLabel(shown[i], d.nextPerfectCount, unitCount) == PerfectStack)
  {
    var d := Chart.CalculateChartData(unitHp, unitCount, pitLordCount);
    Chart.ChartAscending(unitHp, unitCount, pitLordCount);
    Chart.ChartRows(unitHp, unitCount, pitLordCount);
    ShownRowsOfAscending(d.chart);
    ShownKeepsCurrent(d.chart);
    ShownMarkersArePerfect(d.chart, d.nextPerfectCount, unitCount);
  }

  /** The label of a current row at the clamped count `c`, whose next perfect count is `next`. */
  lemma CurrentLabelAt(unitHp: nat, e: Chart.ChartEntry, c: nat, unitCount: int, next: int)
    requires e.isCurrent && e.count == c && c == Chart.Clamp(unitCount)
    requires e.waste == 0 <==> ZeroWaste(unitHp, c)
    requires c < next <= c + PerfectUnits(unitHp) && Chart.LeastPerfectAbove(unitHp, next, c)
    ensures var l := RowLabel(e, next, unitCount);
      && (c > 0 && ZeroWaste(unitHp, c) ==> l == CurrentAndPerfect)
      && (!(c > 0 && ZeroWaste(unitHp, c)) ==> l == CurrentNeeding(next - unitCount))
      && (unitCount >= 0 && l.CurrentNeeding? ==>
            l.diff <= PerfectUnits(unitHp) && Chart.LeastPerfectAbove(unitHp, unitCount + l.diff, unitCount))
  {
  }

  /**
   The label of the current row, given the count the caller passes for it
   (the unclamped input): "CURRENT & PERFECT" when the clamped count is
   positive and wastes nothing, otherwise the distance from the passed count
   to the next perfect count, which for a non-negative input is at most one
   perfect stack.
   */
  lemma CurrentRowLabel(unitHp: nat, unitCount: int, pitLordCount: int, i: nat)
    requires i < |Chart.CalculateChartData(unitHp, unitCount, pitLordCount).chart|
    requires Chart.CalculateChartData(unitHp, unitCount, pitLordCount).chart[i].isCurrent
    ensures var c, d := Chart.Clamp(unitCount), Chart.CalculateChartData(unitHp, unitCount, pitLordCount);
      var l := RowLabel(d.chart[i], d.nextPerfectCount, unitCount);
      && d.chart[i].count == c
      && (c > 0 && ZeroWaste(unitHp, c) ==> l == CurrentAndPerfect)
      && (!(c > 0 && ZeroWaste(unitHp, c)) ==> l == CurrentNeeding(d.nextPerfectCount - unitCount))
      && (unitCount >= 0 && l.CurrentNeeding? ==> l.diff <= PerfectUnits(unitHp))
  {
    var c, d := Chart.Clamp(unitCount), Chart.CalculateChartData(unitHp, unitCount, pitLordCount);
    var e, next := d.chart[i], d.nextPerfectCount;
    assert e.count == c && (e.waste == 0 <==> ZeroWaste(unitHp, c)) by {
      Chart.CurrentRow(unitHp, unitCount, pitLordCount, i);
    }
    assert c < next <= c + PerfectUnits(unitHp) && Chart.LeastPerfectAbove(unitHp, next, c) by {
      Chart.NextPerfectCountIsLeastPerfectAbove(unitHp, unitCount, pitLordCount);
    }
    CurrentLabelAt(unitHp, e, c, unitCount, next);
  }

  /**
   With a negative input the chart shows zero units, whose next perfect count
   is one perfect stack, but the hint counts from the raw input: it asks for
   more than a whole perfect stack.
   */
  lemma NegativeInputHint(unitHp: nat, unitCount: int, pitLordCount: int, i: nat)
    requires unitCount < 0
    requires i < |Chart.CalculateChartData(unitHp, unitCount, pitLordCount).chart|
    requires Chart.CalculateChartData(unitHp, unitCount, pitLordCount).chart[i].isCurrent
    ensures var d := Chart.CalculateChartData(unitHp, unitCount, pitLordCount);
      && d.chart[i].count == 0
      && d.nextPerfectCount == PerfectUnits(unitHp)
      && RowLabel(d.chart[i], d.nextPerfectCount, unitCount) == CurrentNeeding(PerfectUnits(unitHp) - unitCount)
      && PerfectUnits(unitHp) - unitCount > PerfectUnits(unitHp)
  {
    Chart.NegativeInputNextPerfect(unitHp, unitCount, pitLordCount);
    CurrentRowLabel(unitHp, unitCount, pitLordCount, i);
  }

  /** Ten-HP units have a perfect stack of 7, so -3 of them are labelled "Need +10", whatever the Pit Lords. */
  lemma NegativeInputHintExample(pitLordCount: int, i: nat)
    requires i < |Chart.CalculateChartData(10, -3, pitLordCount).chart|
    requires Chart.CalculateChartData(10, -3, pitLordCount).chart[i].isCurrent
    ensures var d := Chart.CalculateChartData(10, -3, pitLordCount);
      d.nextPerfectCount == 7 && RowLabel(d.chart[i], d.nextPerfectCount, -3) == CurrentNeeding(10)
  {
    TenHpPerfectStack();
    NegativeInputHint(10, -3, pitLordCount, i);
  }
}

=== FILE: legacy_chart.dfy ===
/**
 The older revision of the neighbourhood scan (top-level `cli.py`): the same
 window and lower marker, but the upper marker is driven by the waste of the
 last window row, and no next perfect count is returned.
 */
module LegacyChart {
  import Arith
  import opened Core
  import Chart
  import Config

  /** What the older scan returns: the engine's result at the (clamped) current count and the rows. */
  datatype LegacyChartData = LegacyChartData(current: FarmResult, chart: seq<Chart.ChartEntry>)

  /** Appends a marker at the next multiple of `m` above the last row when that row wastes HP. */
  function WithWasteDrivenUpperMarker(unitHp: nat, pitLordCount: int, m: nat, w: seq<Chart.ChartEntry>): seq<Chart.ChartEntry>
    requires m > 0 && |w| > 0
  {
    var last := w[|w| - 1];
    if last.waste > 0 then
      var above := Arith.NextMultiple(last.count, m);
      if above > last.count then w + [Chart.Entry(unitHp, above, pitLordCount, false, true)] else w
    else w
  }

  /** The older scan: clamp, evaluate the current count, build the window, add the markers. */
  function CalculateChartData(unitHp: nat, unitCount: int, pitLordCount: int): (d: LegacyChartData)
    ensures d.current == CalculateDemonFarm(unitHp, Chart.Clamp(unitCount), pitLordCount)
    ensures |d.chart| >= 5
  {
    var c := Chart.Clamp(unitCount);
    var current := CalculateDemonFarm(unitHp, c, pitLordCount);
    var m := current.perfectGrindUnits;
    var w := Chart.Window(unitHp, c, pitLordCount);
    Chart.WindowShape(unitHp, c, pitLordCount);
    var chart :=
      if m > 0 then WithWasteDrivenUpperMarker(unitHp, pitLordCount, m, Chart.WithLowerMarker(unitHp, pitLordCount, m, w))
      else w;
    LegacyChartData(current, chart)
  }

  /** The last window row, at `c + 4`, wastes HP exactly when `c + 4` units do. */
  lemma LastRowWaste(unitHp: nat, c: nat, pitLordCount: int)
    ensures var w := Chart.Window(unitHp, c, pitLordCount);
      |w| > 0 && w[|w| - 1].count == c + 4 && (w[|w| - 1].waste > 0 <==> !ZeroWaste(unitHp, c + 4))
  {
    var w := Chart.Window(unitHp, c, pitLordCount);
    Chart.WindowShape(unitHp, c, pitLordCount);
    Chart.WindowAnnotated(unitHp, c, pitLordCount);
    Chart.AnnotatedWaste(unitHp, pitLordCount, w[|w| - 1]);
  }

  /**
   Where the older rows come from: an optional lower marker (as in the newer
   revision), the window unchanged, then an upper marker exactly when the
   last window row `c + 4` wastes HP, placed at the least zero-waste count
   above it, at most one perfect stack further.
   */
  lemma LegacyChartLayout(unitHp: nat, unitCount: int, pitLordCount: int)
    ensures var c, chart := Chart.Clamp(unitCount), CalculateChartData(unitHp, unitCount, pitLordCount).chart;
      var w, m := Chart.Window(unitHp, c, pitLordCount), PerfectUnits(unitHp);
      var lower := Chart.WindowStart(c) > 0 && Chart.WindowStart(c) != m;
      var upper := !ZeroWaste(unitHp, c + 4);
      var k := if lower then 1 else 0;
      && |chart| == k + |w| + (if upper then 1 else 0)
      && chart[k..k + |w|] == w
      && (lower ==> chart[0].isSpecial && !chart[0].isCurrent && Chart.Annotated(unitHp, pitLordCount, chart[0])
                    && Chart.GreatestPerfectBelow(unitHp, chart[0].count, Chart.WindowStart(c)))
      && (upper ==> chart[|chart| - 1].isSpecial && !chart[|chart| - 1].isCurrent
                    && Chart.Annotated(unitHp, pitLordCount, chart[|chart| - 1])
                    && chart[|chart| - 1].count <= c + 4 + m
                    && Chart.LeastPerfectAbove(unitHp, chart[|chart| - 1].count, c + 4))
  {
    var c, chart := Chart.Clamp(unitCount), CalculateChartData(unitHp, unitCount, pitLordCount).chart;
    var w, m := Chart.Window(unitHp, c, pitLordCount), PerfectUnits(unitHp);
    Chart.WindowShape(unitHp, c, pitLordCount);
    Chart.WindowWaste(unitHp, c, pitLordCount, 0);
    Chart.LowerMarkerPlacement(unitHp, pitLordCount, w);
    OlderChartFromLower(unitHp, unitCount, pitLordCount);
    var above := Arith.NextMultiple(c + 4, m);
    Chart.NextMultipleIsLeastPerfect(unitHp, c + 4);
    Chart.EntryAnnotated(unitHp, above, pitLordCount, false, true);
  }

  /** The rows of the older chart are strictly ascending by count. */
  lemma LegacyChartAscending(unitHp: nat, unitCount: int, pitLordCount: int)
    ensures Chart.StrictlyAscending(CalculateChartData(unitHp, unitCount, pitLordCount).chart)
  {
    var c, chart := Chart.Clamp(unitCount), CalculateChartData(unitHp, unitCount, pitLordCount).chart;
    var w, m := Chart.Window(unitHp, c, pitLordCount), PerfectUnits(unitHp);
    LegacyChartLayout(unitHp, unitCount, pitLordCount);
    Chart.WindowShape(unitHp, c, pitLordCount);
    var k := if Chart.WindowStart(c) > 0 && Chart.WindowStart(c) != m then 1 else 0;
    Chart.FramedAscending(w, chart, k, !ZeroWaste(unitHp, c + 4));
  }

  /** The older chart is the window with its lower marker, followed by a marker at the next multiple of the perfect stack when `c + 4` wastes HP. */
  lemma OlderChartFromLower(unitHp: nat, unitCount: int, pitLordCount: int)
    ensures var c, chart := Chart.Clamp(unitCount), CalculateChartData(unitHp, unitCount, pitLordCount).chart;
      var m := PerfectUnits(unitHp);
      var r := Chart.WithLowerMarker(unitHp, pitLordCount, m, Chart.Window(unitHp, c, pitLordCount));
      chart == if !ZeroWaste(unitHp, c + 4) then r + [Chart.Entry(unitHp, Arith.NextMultiple(c + 4, m), pitLordCount, false, true)] else r
  {
    var c := Chart.Clamp(unitCount);
    Chart.LowerMarkerKeepsLast(unitHp, c, pitLordCount);
    LastRowWaste(unitHp, c, pitLordCount);
  }

  /**
   The newer revision's rows are the older revision's rows, less the older
   upper marker when the newer one finds a perfect count inside the window;
   whenever the newer revision appends its marker, both charts coincide.
   */
  lemma RevisionsDifferOnlyInUpperMarker(unitHp: nat, unitCount: int, pitLordCount: int)
    ensures var c := Chart.Clamp(unitCount);
      var newer, older := Chart.CalculateChartData(unitHp, unitCount, pitLordCount), CalculateChartData(unitHp, unitCount, pitLordCount);
      && newer.current == older.current
      && (newer.nextPerfectCount > c + 4 ==> newer.chart == older.chart)
      && (newer.chart == older.chart || newer.chart == older.chart[..|older.chart| - 1])
  {
    var c := Chart.Clamp(unitCount);
    var m := PerfectUnits(unitHp);
    var next := Chart.CalculateChartData(unitHp, unitCount, pitLordCount).nextPerfectCount;
    Chart.NewerChartFromLower(unitHp, unitCount, pitLordCount);
    OlderChartFromLower(unitHp, unitCount, pitLordCount);
    Chart.NextPerfectCountIsLeastPerfectAbove(unitHp, unitCount, pitLordCount);
    var above := Arith.NextMultiple(c + 4, m);
    Chart.NextMultipleIsLeastPerfect(unitHp, c + 4);
    if next > c + 4 {
      Chart.LeastPerfectAboveShift(unitHp, next, c, c + 4);
      Chart.LeastPerfectAboveUnique(unitHp, next, above, c + 4);
    }
  }

  /** Seven units of 7 HP: the perfect stack is 5 and the window 3..11 gets a lower marker at 0. */
  lemma SevenSevensLowerPart()
    ensures PerfectUnits(7) == 5
    ensures |Chart.WithLowerMarker(7, 0, 5, Chart.Window(7, 7, 0))| == 10
  {
    assert Arith.Gcd(7, Config.DEMON_HP) == 7;
    Chart.WindowShape(7, 7, 0);
    Chart.WindowWaste(7, 7, 0, 0);
    Chart.LowerMarkerPlacement(7, 0, Chart.Window(7, 7, 0));
  }

  /** Seven units of 7 HP: 10 units are the next perfect stack, 11 units waste HP, and 15 follows 11. */
  lemma SevenSevensUpperPart()
    ensures Chart.CalculateChartData(7, 7, 0).nextPerfectCount == 10
    ensures !ZeroWaste(7, 11) && Arith.NextMultiple(11, 5) == 15
  {
    assert Arith.Gcd(7, Config.DEMON_HP) == 7;
    assert CalculateDemonFarm(7, 7, 0).wastedHp == 14;
    assert Arith.NextMultiple(7, 5) == 10;
  }

  /**
   The revisions can disagree: seven units of 7 HP have a perfect stack of 5,
   so the newer chart finds 10 inside the window 3..11 and adds no upper
   marker, while the older chart adds one at 15 because 11 units waste HP.
   */
  lemma RevisionsDisagreeExample()
    ensures |Chart.CalculateChartData(7, 7, 0).chart| == 10
    ensures var older := CalculateChartData(7, 7, 0).chart;
      |older| == 11 && older[10].count == 15 && older[10].isSpecial
  {
    SevenSevensLowerPart();
    SevenSevensUpperPart();
    Chart.NewerChartFromLower(7, 7, 0);
    OlderChartFromLower(7, 7, 0);
  }
}
